=== FILE: README.md ===
# Orchestra API with JWT authentication — a Dafny model

This project models the logic under the framework wiring of a Spring Boot REST API for
musicians and orchestras, guarded by JSON Web Token authentication, and of a small companion
"users" example. Persistence, cryptography, the clock and the framework are replaced by finite
maps, function-valued parameters and explicit arguments, and the properties each piece promises
are proved.

- **Token service** (`JwtService`): a token is a claim set (extra claims, subject, issued-at,
  expiration) plus a MAC over the claims under the signing key. The MAC (HS256 in the code) is the
  function-valued field of `Signer`; verification recomputes it and compares, so "a token signed
  with the key verifies under the key" is a theorem, not an axiom. Tokens live 1000·60·24 ms =
  1,440,000 ms (24 minutes), the value the code uses. Expiry is strict (`before`). The current time
  is a `now: nat` parameter in milliseconds.
- **Password encoder, lookup and provider** (`ApplicationConfig`): the BCrypt-style hash embeds its
  salt; `Matches` recomputes the digest under that salt. The digest function is a parameter and
  the salt an argument (it is random in the code). The user lookup and the credential check
  (lookup, then match) are plain functions over a user table keyed by username.
- **Login and registration** (`AuthService`): registration builds a `USER` with the encoded
  password, stores it and issues a token; login runs the credential check first, then issues.
- **Route policy and filter chain** (`SecurityConfig`): the `/auth` subtree is open and every other
  path needs authentication. The chain is a sequence of filters, the JWT filter is inserted before
  the username/password filter, and running the chain from an empty identity (stateless sessions)
  either dispatches the request to its handler or denies it.
- **Musician service** (`MusicianService`): save, get, list, delete, add to and remove from an
  orchestra, over a musicians table and an orchestras table held as maps. Thrown exceptions are
  `Err` results; a failed call yields no new tables.
- **Mappers**: the two musician DTO classes (`DtoMusicianMapper` for the `dto` package,
  `ModelMusicianMapper` for `model.dto`), `OrchestraMapper`, and the users example's `UsersMapper`.
- **Status codes** (`OrchestraController`): each handler takes what the orchestra service returned
  (or that it threw) and returns the HTTP status, the body and the service calls it made.
- **Users listing** (`UsersService`): a loop that maps every stored user to its DTO in order.

Java null is `Option.None` for the fields the mappers copy and for the links the code tests against
null.

## Model

| member | source | states |
|---|---|---|
| JwtService.BuildToken | API-Rest_SpringBoot/springproject/src/main/java/com/project/springproject/security/Jwt/JwtService.java:52-61 | the token verifies under the key and carries the given extra claims, the user's name as subject, issued-at `now` and expiration `now` plus the token lifetime |
| JwtService.GetToken | API-Rest_SpringBoot/springproject/src/main/java/com/project/springproject/security/Jwt/JwtService.java:38-43 | fails with IllegalArgument exactly when the user is null; otherwise issues a verifying token with an empty extra-claims map whose subject is the user's name |
| JwtService.GetAllClaims | API-Rest_SpringBoot/springproject/src/main/java/com/project/springproject/security/Jwt/JwtService.java:91-98 | claims are returned if and only if the token parses and its signature verifies under the key; unparseable text fails as malformed, a bad MAC as a signature mismatch |
| JwtService.GetClaim | API-Rest_SpringBoot/springproject/src/main/java/com/project/springproject/security/Jwt/JwtService.java:109-112 | the resolver sees only verified claims: success exactly when the token verifies, with the parser's error otherwise |
| JwtService.GetUsernameFromToken | API-Rest_SpringBoot/springproject/src/main/java/com/project/springproject/security/Jwt/JwtService.java:69-71 | succeeds exactly for verifying tokens and returns their (possibly null) subject |
| JwtService.GetExpiration | API-Rest_SpringBoot/springproject/src/main/java/com/project/springproject/security/Jwt/JwtService.java:120-122 | succeeds exactly for verifying tokens and returns their (possibly null) expiration |
| JwtService.IsTokenExpired | API-Rest_SpringBoot/springproject/src/main/java/com/project/springproject/security/Jwt/JwtService.java:130-132 | answers whether the expiration is strictly before `now`; a verifying token without expiration throws a null-pointer error |
| JwtService.IsTokenValid | API-Rest_SpringBoot/springproject/src/main/java/com/project/springproject/security/Jwt/JwtService.java:80-83 | true iff the token verifies, its subject is the user's name and it is not expired; false iff it verifies with a subject that differs or has expired; errors for unverifiable tokens, for a null subject, and (NullPointer) for a matching subject with no expiration |
| JwtService.IssuedTokenLifetime | API-Rest_SpringBoot/springproject/src/main/java/com/project/springproject/security/Jwt/JwtService.java:55-58 | an issued token's expiration is its issued-at plus exactly 1,440,000 ms and its extra claims are empty |
| JwtService.SubjectRoundTrip | API-Rest_SpringBoot/springproject/src/main/java/com/project/springproject/security/Jwt/JwtService.java:52-71 | the username read back from a token issued for a user is that user's name |
| JwtService.IssuedTokenValidity | API-Rest_SpringBoot/springproject/src/main/java/com/project/springproject/security/Jwt/JwtService.java:80-83 | an issued token is valid for its user at `now` iff `now` is at most issue time plus 1,440,000 ms, and is never valid for a user with another name |
| JwtService.ExpiryIsStrict | API-Rest_SpringBoot/springproject/src/main/java/com/project/springproject/security/Jwt/JwtService.java:130-132 | at the expiration instant the token is not expired; one millisecond later it is |
| JwtService.ForgedSignatureRejected | API-Rest_SpringBoot/springproject/src/main/java/com/project/springproject/security/Jwt/JwtService.java:91-98 | an issued token with its signature replaced fails both the username read and the validity check with a signature mismatch |
| JwtService.OtherKeyRejected | API-Rest_SpringBoot/springproject/src/main/java/com/project/springproject/security/Jwt/JwtService.java:91-98 | an issued token is rejected, with a signature mismatch, under any other key the MAC separates from the signing key |
| ApplicationConfig.Encode | API-Rest_SpringBoot/springproject/src/main/java/com/project/springproject/security/Config/ApplicationConfig.java:60-62 | the encoded password embeds the salt it was hashed with |
| ApplicationConfig.Matches | API-Rest_SpringBoot/springproject/src/main/java/com/project/springproject/security/Config/ApplicationConfig.java:47-52 | a raw password matches a stored hash exactly when encoding it again under the hash's own salt reproduces that hash |
| ApplicationConfig.EncodeThenMatches | API-Rest_SpringBoot/springproject/src/main/java/com/project/springproject/security/Config/ApplicationConfig.java:60-62 | the shared encoder matches every password against its own encoding, whatever the salt |
| ApplicationConfig.OtherPasswordRejected | API-Rest_SpringBoot/springproject/src/main/java/com/project/springproject/security/Config/ApplicationConfig.java:60-62 | when the digest separates two passwords under a salt, the other password does not match the hash |
| ApplicationConfig.LoadUserByUsername | API-Rest_SpringBoot/springproject/src/main/java/com/project/springproject/security/Config/ApplicationConfig.java:70-73 | returns the stored user exactly when the username is present, and UsernameNotFound otherwise |
| ApplicationConfig.Authenticate | API-Rest_SpringBoot/springproject/src/main/java/com/project/springproject/security/Config/ApplicationConfig.java:47-52 | succeeds iff the user exists and the raw password matches the stored hash under the shared encoder; UsernameNotFound for an unknown user, BadCredentials for a wrong password |
| AuthService.NewUser | API-Rest_SpringBoot/springproject/src/main/java/com/project/springproject/security/Auth/AuthService.java:55-62 | the built user has role USER, the encoded password, and the request's username, first name, last name and email |
| AuthService.Register | API-Rest_SpringBoot/springproject/src/main/java/com/project/springproject/security/Auth/AuthService.java:54-70 | the table afterwards is the old one with the new USER record under its username (encoded password, copied profile fields, nothing else changed); the token verifies, names that username, has no extra claims and expires one lifetime after `now` |
| AuthService.Login | API-Rest_SpringBoot/springproject/src/main/java/com/project/springproject/security/Auth/AuthService.java:36-46 | a token is issued iff the credential check passes; unknown user and wrong password fail with their own errors and issue nothing; the token's subject is the requested username |
| AuthService.RegisterStoresOnlyTheHash | API-Rest_SpringBoot/springproject/src/main/java/com/project/springproject/security/Auth/AuthService.java:57 | the stored password is the salted digest of the plaintext and it matches the plaintext |
| AuthService.RegisterThenLogin | API-Rest_SpringBoot/springproject/src/main/java/com/project/springproject/security/Auth/AuthService.java:36-70 | after registering a username not yet stored, logging in with the same username and password succeeds; both tokens read back the username and the login token is valid for the stored record |
| AuthService.LoginFailures | API-Rest_SpringBoot/springproject/src/main/java/com/project/springproject/security/Auth/AuthService.java:37-40 | after registering a username not yet stored, a wrong password fails with BadCredentials and an unknown username with UsernameNotFound |
| SecurityConfig.AccessFor | API-Rest_SpringBoot/springproject/src/main/java/com/project/springproject/security/Config/SecurityConfig.java:42-44 | a path is open iff it is `/auth` or lies below `/auth/`; every other path needs authentication |
| SecurityConfig.AddFilterBefore | API-Rest_SpringBoot/springproject/src/main/java/com/project/springproject/security/Config/SecurityConfig.java:48 | the new filter takes the position of the first anchor; filters before it are unchanged and the anchor and everything after move one step later |
| SecurityConfig.ConfiguredChain | API-Rest_SpringBoot/springproject/src/main/java/com/project/springproject/security/Config/SecurityConfig.java:48 | the configured chain is the base chain with the JWT filter added in front of it, one filter longer |
| SecurityConfig.ConfiguredChainOrder | API-Rest_SpringBoot/springproject/src/main/java/com/project/springproject/security/Config/SecurityConfig.java:48 | the configured chain runs the JWT filter, then the username/password filter, then authorization |
| SecurityConfig.Run | API-Rest_SpringBoot/springproject/src/main/java/com/project/springproject/security/Config/SecurityConfig.java:42-48 | an open route is always dispatched; a protected route with no identity and no resolving token is denied once authorization runs; a dispatched identity is the incoming one or the request's own token's |
| SecurityConfig.Serve | API-Rest_SpringBoot/springproject/src/main/java/com/project/springproject/security/Config/SecurityConfig.java:42-48 | with the stateless session policy each request starts with no identity, so a dispatched request carries exactly the identity its own token yields (none on an open route without one) |
| SecurityConfig.GateSoundness | API-Rest_SpringBoot/springproject/src/main/java/com/project/springproject/security/Config/SecurityConfig.java:42-48 | starting from an empty context, a request reaches its handler iff its route is open or its own token yields an identity, and any identity the handler sees comes from that token |
| SecurityConfig.AnonymousRequests | API-Rest_SpringBoot/springproject/src/main/java/com/project/springproject/security/Config/SecurityConfig.java:43-44 | without a token, `/auth/login` and `/auth/register` are dispatched and `/orchestras` is denied |
| SecurityConfig.OtherRoutesNeedAuthentication | API-Rest_SpringBoot/springproject/src/main/java/com/project/springproject/security/Config/SecurityConfig.java:44 | every path that does not start with `/auth` needs authentication |
| SecurityConfig.LateJwtFilterDenies | API-Rest_SpringBoot/springproject/src/main/java/com/project/springproject/security/Config/SecurityConfig.java:48 | were the JWT filter placed after authorization, a protected route would be denied even with a valid token |
| MusicianService.Persist | API-Rest_SpringBoot/springproject/src/main/java/com/project/springproject/services/MusicianServiceImpl.java:54 | an entity whose id names a stored row is merged into that row; one with no id or an id no row has is inserted under the generated id; every other row is unchanged and rows keep their keys |
| MusicianService.SaveMusician | API-Rest_SpringBoot/springproject/src/main/java/com/project/springproject/services/MusicianServiceImpl.java:45-59 | fails iff a given orchestra id is not stored; otherwise writes only the saved row (the DTO's id when a row has it, the generated id otherwise), with the DTO's scalars, no orchestra for a null id and the stored orchestra for a present one, and returns the DTO of the saved row; for a well-keyed store (every row carries the key it is stored under, which the database guarantees) that DTO's orchestra id is the requested one and the store stays well-keyed |
| MusicianService.GetMusicianById | API-Rest_SpringBoot/springproject/src/main/java/com/project/springproject/services/MusicianServiceImpl.java:69-80 | returns the stored musician's scalars and orchestra id when present, NoSuchElement otherwise |
| MusicianService.GetAllMusicians | API-Rest_SpringBoot/springproject/src/main/java/com/project/springproject/services/MusicianServiceImpl.java:89-101 | one DTO per stored musician, as many as there are rows, in the order the repository lists them |
| MusicianService.DeleteMusicianById | API-Rest_SpringBoot/springproject/src/main/java/com/project/springproject/services/MusicianServiceImpl.java:110-116 | the id is gone, every other musician and every orchestra is unchanged |
| MusicianService.AddMusicianToOrchestra | API-Rest_SpringBoot/springproject/src/main/java/com/project/springproject/services/MusicianServiceImpl.java:128-139 | fails iff the orchestra is missing; otherwise saves the musician linked to that orchestra (under the DTO's id when a row has it, the generated id otherwise), changing no other row, and returns the DTO of the saved row; for a well-keyed store (every row carries the key it is stored under, which the database guarantees) that DTO's orchestra id is the argument and the store stays well-keyed |
| MusicianService.RemoveMusicianFromOrchestra | API-Rest_SpringBoot/springproject/src/main/java/com/project/springproject/services/MusicianServiceImpl.java:151-167 | fails for a missing orchestra, a missing musician, or a musician with no orchestra; otherwise answers true and clears the link iff the musician's orchestra is that one, and false with nothing changed otherwise |
| MusicianService.RemoveMusicianFromOrchestraNullSafe | API-Rest_SpringBoot/springproject/src/main/java/com/project/springproject/services/MusicianServiceImpl.java:151-167 | fails only for a missing orchestra or musician; answers true and clears the link iff the musician belongs to that orchestra, false with nothing changed otherwise |
| MusicianService.NullSafeAgreesElsewhere | API-Rest_SpringBoot/springproject/src/main/java/com/project/springproject/services/MusicianServiceImpl.java:151-167 | the corrected removal gives the same result as the code everywhere except for a musician with no orchestra |
| MusicianService.UnassignedMusicianWitness | API-Rest_SpringBoot/springproject/src/main/java/com/project/springproject/services/MusicianServiceImpl.java:157 | for a stored musician with no orchestra the code throws, and the corrected removal answers false with nothing changed |
| MusicianService.AddThenRemove | API-Rest_SpringBoot/springproject/src/main/java/com/project/springproject/services/MusicianServiceImpl.java:128-165 | adding a musician to an orchestra and then removing it from that orchestra, with the removal as written, answers true and leaves the musician stored with no orchestra; the corrected removal gives the same result |
| MusicianService.SaveThenGet | API-Rest_SpringBoot/springproject/src/main/java/com/project/springproject/services/MusicianServiceImpl.java:45-80 | a save with a stored or absent orchestra id succeeds, and reading back the key it was saved under returns exactly the DTO the save returned |
| MusicianService.DeleteThenGet | API-Rest_SpringBoot/springproject/src/main/java/com/project/springproject/services/MusicianServiceImpl.java:69-116 | after deleting an id, reading it back fails with NoSuchElement for that id, and reading any other id gives what it gave before |
| DtoMusicianMapper.ConvertToDto | API-Rest_SpringBoot/springproject/src/main/java/com/project/springproject/dto/MusicianDTO.java:32-45 | copies the six scalars; the orchestra id is the linked orchestra's id, and null when there is no orchestra |
| DtoMusicianMapper.ConvertToEntity | API-Rest_SpringBoot/springproject/src/main/java/com/project/springproject/dto/MusicianDTO.java:53-63 | copies the six scalars and leaves the orchestra unset |
| DtoMusicianMapper.DtoRoundTrip | API-Rest_SpringBoot/springproject/src/main/java/com/project/springproject/dto/MusicianDTO.java:32-63 | DTO to entity and back gives the same DTO with a null orchestra id |
| DtoMusicianMapper.EntityRoundTrip | API-Rest_SpringBoot/springproject/src/main/java/com/project/springproject/dto/MusicianDTO.java:32-63 | entity to DTO and back gives the same entity without its orchestra |
| DtoMusicianMapper.OnlyOrchestraIdSurvives | API-Rest_SpringBoot/springproject/src/main/java/com/project/springproject/dto/MusicianDTO.java:40-42 | two orchestras with the same id give the same DTO: only the id of the orchestra reaches it |
| ModelMusicianMapper.ConvertToDto | API-Rest_SpringBoot/springproject/src/main/java/com/project/springproject/model/dto/MusicianDTO.java:38-52 | copies the six scalars and leaves orchestra id and orchestra name null |
| ModelMusicianMapper.ConvertToEntity | API-Rest_SpringBoot/springproject/src/main/java/com/project/springproject/model/dto/MusicianDTO.java:60-71 | copies the six scalars and sets the orchestra to null |
| ModelMusicianMapper.EntityRoundTrip | API-Rest_SpringBoot/springproject/src/main/java/com/project/springproject/model/dto/MusicianDTO.java:38-71 | entity to DTO and back keeps the scalars and always ends with a null orchestra |
| ModelMusicianMapper.DtoRoundTrip | API-Rest_SpringBoot/springproject/src/main/java/com/project/springproject/model/dto/MusicianDTO.java:38-71 | DTO to entity and back keeps the scalars and clears both orchestra fields |
| ModelMusicianMapper.OrchestraIgnored | API-Rest_SpringBoot/springproject/src/main/java/com/project/springproject/model/dto/MusicianDTO.java:46-49 | the musician's orchestra never influences its DTO |
| OrchestraMapper.ConvertToDto | API-Rest_SpringBoot/springproject/src/main/java/com/project/springproject/model/dto/OrchestraDTO.java:34-44 | id, name, city, country, estile and conductor are copied unchanged |
| OrchestraMapper.ConvertToEntity | API-Rest_SpringBoot/springproject/src/main/java/com/project/springproject/model/dto/OrchestraDTO.java:52-62 | the same six fields are copied unchanged |
| OrchestraMapper.DtoRoundTrip | API-Rest_SpringBoot/springproject/src/main/java/com/project/springproject/model/dto/OrchestraDTO.java:34-62 | DTO to entity and back is the identity |
| OrchestraMapper.EntityRoundTrip | API-Rest_SpringBoot/springproject/src/main/java/com/project/springproject/model/dto/OrchestraDTO.java:34-62 | entity to DTO and back agrees with the entity on the six fields |
| OrchestraMapper.ConvertToDtoInjective | API-Rest_SpringBoot/springproject/src/main/java/com/project/springproject/model/dto/OrchestraDTO.java:34-44 | distinct orchestras give distinct DTOs |
| OrchestraController.GetAll | API-Rest_SpringBoot/springproject/src/main/java/com/project/springproject/controllers/OrchestraController.java:48-56 | 200 iff the service returns, with a body whose only key "orchestras" holds the service's list; 500 with no body iff it throws |
| OrchestraController.FindOrchestra | API-Rest_SpringBoot/springproject/src/main/java/com/project/springproject/controllers/OrchestraController.java:65-76 | 200 with the orchestra iff one is found, 404 iff the service answers null, 500 iff it throws |
| OrchestraController.CreateOrchestra | API-Rest_SpringBoot/springproject/src/main/java/com/project/springproject/controllers/OrchestraController.java:87-101 | 201 iff the save returns an orchestra, 400 with a null body iff it returns null, 500 iff it throws |
| OrchestraController.UpdateOrchestra | API-Rest_SpringBoot/springproject/src/main/java/com/project/springproject/controllers/OrchestraController.java:110-124 | looks up first; the save is called iff the lookup found the orchestra; 404 iff not found, 200 with the save's result iff found and saved, 500 iff a call threw |
| OrchestraController.Delete | API-Rest_SpringBoot/springproject/src/main/java/com/project/springproject/controllers/OrchestraController.java:133-140 | 200 with "Orchestra deleted" iff the service returns, 500 iff it throws |
| OrchestraController.StatusesAreKnown | API-Rest_SpringBoot/springproject/src/main/java/com/project/springproject/controllers/OrchestraController.java:48-140 | no handler answers with a status outside 200, 201, 400, 404 and 500, and each answers 500 exactly when a service call it made threw |
| UsersMapper.ConvertToDto | SpringBoot_example/users_example/src/main/java/com/springboot/users_example/model/transferObject/mapper/UsersMapper.java:8-21 | user id, username, first and last name, gender, password and status (null included) are copied unchanged |
| UsersMapper.ConvertToDtoLossless | SpringBoot_example/users_example/src/main/java/com/springboot/users_example/model/transferObject/mapper/UsersMapper.java:12-18 | the row can be read back from its DTO, the stored password included |
| UsersMapper.ConvertToDtoInjective | SpringBoot_example/users_example/src/main/java/com/springboot/users_example/model/transferObject/mapper/UsersMapper.java:12-18 | distinct rows give distinct DTOs |
| UsersService.GetAllUsers | SpringBoot_example/users_example/src/main/java/com/springboot/users_example/services/UsersServiceImpl.java:22-30 | as many DTOs as stored users, the i-th being the mapping of the i-th user, from which that user maps back unchanged; an empty store gives an empty list; the store is taken by value and cannot change |

## Findings

| source | as written | input that shows it | evidently intended | confidence | as-written member | corrected member |
|---|---|---|---|---|---|---|
| API-Rest_SpringBoot/springproject/src/main/java/com/project/springproject/services/MusicianServiceImpl.java:157 | `musician.getOrchestra().equals(orchestra)` dereferences the musician's orchestra link without a null check, so the call throws (wrapped as a RuntimeException) | orchestra 1 stored, musician 2 stored with no orchestra, remove musician 2 from orchestra 1 | answer false with nothing changed, as the method's documentation ("false otherwise") describes | medium; not executed | MusicianService.RemoveMusicianFromOrchestra (witness: MusicianService.UnassignedMusicianWitness) | MusicianService.RemoveMusicianFromOrchestraNullSafe |

## Left out

- Cryptography: the HS256 MAC, the Base64 decoding of the secret and BCrypt are not modelled; the MAC
  and the password digest are function-valued parameters with no properties assumed.
- Key injection: the code declares the secret as a `static` field with `@Value`, which Spring
  does not inject; the model takes the key as an explicit, immutable field of `Signer`.
- JwtService.IsTokenExpired: does not model the expiry check the JWT library performs itself while
  parsing (it throws for an expired token before this code compares dates), because that is library
  behaviour outside the code.
- JwtService.GetAllClaims: parsing is modelled as signature verification only, so an expired token
  parses here and in `GetClaim`, `GetUsernameFromToken` and `GetExpiration`, where the library's
  `parseClaimsJws` throws an expired-token exception.
- JwtService.IsTokenValid: for the same reason an expired token answers false here, where the
  library would already have thrown.
- JwtService.BuildToken: uses one clock reading for issued-at and expiration, while the code reads
  the clock twice; the library's rounding of dates to whole seconds and the 64-bit overflow of
  `currentTimeMillis() + 1440000` are not modelled either. Extra claims are kept apart from the
  subject and times, so an extra claim named like a registered claim does not override them; only
  the empty map is ever passed.
- The token lifetime is kept at 1,440,000 ms (24 minutes) as written, although `1000 * 60 * 24`
  reads like an intended 24 hours.
- SecurityConfig.Run: the JWT request filter is not part of this model: how it reads the
  `Authorization` header and decides on a token is the `resolve` parameter, a total function that
  yields a username or nothing. The filter is thus assumed never to fail: were it to let a parse or
  signature error escape (as `JwtService.GetUsernameFromToken` reports for a malformed or forged
  token), the request would stop there, on open routes such as `/auth/login` too, and
  `SecurityConfig.Run`'s "an open route is always dispatched" would not hold.
- CSRF being disabled, the registration of the authentication provider and the status code Spring
  sends for a denied request are not modelled.
- SecurityConfig.AccessFor: paths are the normalized servlet paths the request matchers see;
  requests Spring's firewall rejects before any matcher runs (such as paths with `..` segments) are
  not modelled, so the rule is stated over any string.
- The `authenticationManager` bean is wiring; the credential check it delegates to is
  `ApplicationConfig.Authenticate`.
- ApplicationConfig.Authenticate: reports the lookup's own UsernameNotFound error; Spring's provider
  by default rewraps it as a bad-credentials error, which is library behaviour.
- AuthService.Login: the `orElseThrow` after the credential check can never fire in a sequential
  model (the check already found the user), so an unknown username fails with the lookup's error.
- AuthService.Register: has no duplicate-username check, as in the code; with the table keyed by
  username a second registration replaces the row. The user entity is not part of this model: the
  database either adds a second row or, if the username column is unique, rejects the save; neither
  is representable in the username-keyed table.
  The generated user id is not modelled. Storing before issuing the token is a side-effect order the
  functional model does not have; the token is issued for the record that is stored.
- AuthService.RegisterThenLogin: stated for a username not yet stored only; after a second
  registration under the same name the database holds two rows (and the login's lookup fails) or
  rejects the save, which the username-keyed table cannot represent. AuthService.LoginFailures is restricted alike.
- The code has no unified invalid-credentials error, no username-taken error, no token refresh and
  no revocation, and neither does the model.
- MusicianService.Persist: ids are generated through a `freshId` argument; an explicit id that no
  row has is replaced by the generated one, as Hibernate's merge did before version 6.6 (later
  versions throw instead, which the model does not follow); transactions, cascades and the orchestra's
  inverse list of musicians are not modelled; deleting an absent id changes nothing.
- MusicianService.RemoveMusicianFromOrchestra: the code compares orchestra objects with `equals`,
  which for these entities is object identity; within one persistence context that is the same row,
  modelled as equal ids.
- MusicianService.GetAllMusicians: the repository's listing order is an argument that lists every
  stored id once.
- The `MusicianService` interface restates the implementation and has no row of its own.
- Request fields of the login and register requests and path ids are modelled as non-null.
- The orchestra service implementation is not part of this model: the controller is modelled over
  what its calls return or throw.
- `AuthController` and `UserController` only wrap results in responses; the application class and
  `ModelMapperConfig` are wiring; logging and exception messages are omitted.

=== FILE: accounts.dfy ===
/** The credential record of the JWT application and the table that holds it. */
module Accounts {

  type Bytes = seq<bv8>

  /** The role of a user. `USER` is the one the application assigns; any other constant of the
      role enumeration is represented by its name. */
  datatype Role = USER | OtherRole(name: string)

  /** A BCrypt-style hash: the salt is embedded next to the digest, so it can be recomputed. */
  datatype PasswordHash = PasswordHash(salt: Bytes, digest: Bytes)

  /** A user row. The password column holds only a hash, never the plaintext. */
  datatype User = User(
    username: string,
    password: PasswordHash,
    firstname: string,
    lastname: string,
    email: string,
    role: Role)

  /** The user table, looked up by username. */
  type UserStore = map<string, User>

  /** `findByUsername(name)` only ever returns a user whose username is `name`. */
  predicate KeyedByUsername(users: UserStore) {
    forall name :: name in users ==> users[name].username == name
  }
}

=== FILE: application_config.dfy ===
/** The authentication wiring: the shared password encoder, the user lookup and the provider that
    pairs them into the credential check used by login. */
module ApplicationConfig {
  import opened Common
  import opened Accounts

  /** The one encoder bean (BCrypt in the source). `digest` is its one-way function of a salt and a
      raw password; the model leaves it uninterpreted. */
  datatype PasswordEncoder = PasswordEncoder(digest: (Bytes, string) -> Bytes)

  datatype AuthError =
    | UsernameNotFound   // UsernameNotFoundException from the lookup
    | BadCredentials     // the provider's password check failed
    | NoSuchElement      // Optional.orElseThrow on an empty lookup

  /** `encode`: hash `raw` under a fresh `salt` and embed the salt in the result. */
  function Encode(encoder: PasswordEncoder, raw: string, salt: Bytes): (h: PasswordHash)
    ensures h.salt == salt
  {
    PasswordHash(salt, encoder.digest(salt, raw))
  }

  /** `matches`: recompute the digest of `raw` under the embedded salt and compare. A password
      matches exactly when encoding it again under the stored salt reproduces the stored hash. */
  function Matches(encoder: PasswordEncoder, raw: string, encoded: PasswordHash): (ok: bool)
    ensures ok <==> Encode(encoder, raw, encoded.salt) == encoded
  {
    encoder.digest(encoded.salt, raw) == encoded.digest
  }

  /** The encoder accepts every password it encoded, whatever the salt. */
  lemma EncodeThenMatches(encoder: PasswordEncoder, raw: string, salt: Bytes)
    ensures Matches(encoder, raw, Encode(encoder, raw, salt))
  {
  }

  /** If the digest separates passwords under a salt, no other password matches the hash. */
  lemma OtherPasswordRejected(encoder: PasswordEncoder, raw: string, other: string, salt: Bytes)
    requires encoder.digest(salt, raw) != encoder.digest(salt, other)
    ensures !Matches(encoder, other, Encode(encoder, raw, salt))
  {
  }

  /** The `userDetailService` lookup: the stored user, or `UsernameNotFoundException`. */
  function LoadUserByUsername(users: UserStore, username: string): (r: Result<User, AuthError>)
    ensures r.Ok? <==> username in users
    ensures r.Ok? ==> r.value == users[username]
    ensures r.Err? ==> r.error == UsernameNotFound
  {
    if username in users then Ok(users[username]) else Err(UsernameNotFound)
  }

  /** The provider built from that lookup and the shared encoder: look the user up, then
      check the raw password against the stored hash. */
  function Authenticate(users: UserStore, encoder: PasswordEncoder, username: string, password: string)
    : (r: Result<User, AuthError>)
    ensures r.Ok? <==> username in users && Matches(encoder, password, users[username].password)
    ensures r.Ok? ==> r.value == users[username]
    ensures username !in users ==> r == Err(UsernameNotFound)
    ensures username in users && !Matches(encoder, password, users[username].password) ==> r == Err(BadCredentials)
  {
    var user :- LoadUserByUsername(users, username);
    if Matches(encoder, password, user.password) then Ok(user) else Err(BadCredentials)
  }
}

=== FILE: auth_service.dfy ===
/** Login and registration: the two entry points that issue tokens. */
module AuthService {
  import opened Common
  import opened Accounts
  import opened ApplicationConfig
  import JwtService

  datatype LoginRequest = LoginRequest(username: string, password: string)

  datatype RegisterRequest = RegisterRequest(
    username: string,
    password: string,
    firstname: string,
    lastname: string,
    email: string)

  datatype AuthResponse = AuthResponse(token: JwtService.Token)

  /** A completed registration: the user table afterwards and the response. */
  datatype Registered = Registered(users: UserStore, response: AuthResponse)

  /** The user record `register` builds. */
  function NewUser(request: RegisterRequest, encoder: PasswordEncoder, salt: Bytes): (u: User)
    ensures u.role == USER
    ensures u.password == Encode(encoder, request.password, salt)
    ensures u.username == request.username && u.firstname == request.firstname
    ensures u.lastname == request.lastname && u.email == request.email
  {
    User(request.username, Encode(encoder, request.password, salt), request.firstname,
         request.lastname, request.email, USER)
  }

  /** `register`: builds a USER with the encoded password, saves it (no duplicate check: an
      existing row with that username is replaced) and issues a token for the saved record. */
  function Register(users: UserStore, request: RegisterRequest, encoder: PasswordEncoder, salt: Bytes,
                    signer: JwtService.Signer, now: nat): (r: Registered)
    ensures request.username in r.users
    ensures r.users == users[request.username := r.users[request.username]]
    ensures var u := r.users[request.username];
            && u.role == USER
            && u.password == Encode(encoder, request.password, salt)
            && u.username == request.username && u.firstname == request.firstname
            && u.lastname == request.lastname && u.email == request.email
    ensures JwtService.Verifies(signer, r.response.token)
    ensures r.response.token.claims.subject == Some(request.username)
    ensures r.response.token.claims.extra == map[]
    ensures r.response.token.claims.expiration == Some(now + JwtService.TokenLifetime)
    ensures KeyedByUsername(users) ==> KeyedByUsername(r.users)
  {
    var user := NewUser(request, encoder, salt);
    var saved := users[user.username := user];
    Registered(saved, AuthResponse(JwtService.GetToken(signer, Some(user), now).value))
  }

  /** `login`: the credential check runs first; only then is the user read again and a token issued. */
  function Login(users: UserStore, request: LoginRequest, encoder: PasswordEncoder,
                 signer: JwtService.Signer, now: nat): (r: Result<AuthResponse, AuthError>)
    ensures r.Ok? <==> request.username in users && Matches(encoder, request.password, users[request.username].password)
    ensures request.username !in users ==> r == Err(UsernameNotFound)
    ensures request.username in users && !Matches(encoder, request.password, users[request.username].password)
            ==> r == Err(BadCredentials)
    ensures r.Ok? ==> JwtService.Verifies(signer, r.value.token)
    ensures r.Ok? ==> r.value.token.claims.subject == Some(users[request.username].username)
    ensures r.Ok? && KeyedByUsername(users) ==> r.value.token.claims.subject == Some(request.username)
  {
    var _ :- Authenticate(users, encoder, request.username, request.password);
    if request.username !in users then Err(NoSuchElement)
    else Ok(AuthResponse(JwtService.GetToken(signer, Some(users[request.username]), now).value))
  }

  /** The stored password is never the plaintext: only its salted digest is kept, and the plaintext
      is recovered from the row only through the encoder. */
  lemma RegisterStoresOnlyTheHash(users: UserStore, request: RegisterRequest, encoder: PasswordEncoder,
                                  salt: Bytes, signer: JwtService.Signer, now: nat)
    ensures var u := Register(users, request, encoder, salt, signer, now).users[request.username];
            && u.password.digest == encoder.digest(salt, request.password)
            && Matches(encoder, request.password, u.password)
  {
  }

  /** Register a new username, then log in with it and the same password: the login succeeds, and both
      tokens name the new user and are valid for the stored record until they expire. */
  lemma RegisterThenLogin(users: UserStore, request: RegisterRequest, encoder: PasswordEncoder,
                          salt: Bytes, signer: JwtService.Signer, registeredAt: nat, loginAt: nat)
    requires request.username !in users
    ensures var reg := Register(users, request, encoder, salt, signer, registeredAt);
            var login := Login(reg.users, LoginRequest(request.username, request.password), encoder, signer, loginAt);
            && login.Ok?
            && JwtService.GetUsernameFromToken(signer, login.value.token) == Ok(Some(request.username))
            && JwtService.GetUsernameFromToken(signer, reg.response.token) == Ok(Some(request.username))
            && JwtService.IsTokenValid(signer, login.value.token, reg.users[request.username], loginAt) == Ok(true)
  {
  }

  /** After a new user registers, a wrong password and an unknown username both stop login
      before any token is issued, with different errors. */
  lemma LoginFailures(users: UserStore, request: RegisterRequest, encoder: PasswordEncoder, salt: Bytes,
                      signer: JwtService.Signer, now: nat, wrong: string, stranger: string)
    requires encoder.digest(salt, request.password) != encoder.digest(salt, wrong)
    requires request.username !in users
    requires stranger != request.username && stranger !in users
    ensures var reg := Register(users, request, encoder, salt, signer, now);
            && Login(reg.users, LoginRequest(request.username, wrong), encoder, signer, now) == Err(BadCredentials)
            && Login(reg.users, LoginRequest(stranger, request.password), encoder, signer, now) == Err(UsernameNotFound)
  {
  }
}

=== FILE: common.dfy ===
/** Shared wrappers: a nullable reference and the outcome of a call that may throw. */
module Common {

  /** A Java reference that may be null: `None` stands for null. */
  datatype Option<+T> = None | Some(value: T)

  /** The outcome of an operation that either returns a value or throws `error`.
      Usable with `:-`, so a thrown exception propagates the way Java's does. */
  datatype Result<+T, +E> = Ok(value: T) | Err(error: E) {

    predicate IsFailure() {
      Err?
    }

    function PropagateFailure<U>(): Result<U, E>
      requires Err?
    {
      Err(error)
    }

    function Extract(): T
      requires Ok?
    {
      value
    }
  }
}

=== FILE: domain.dfy ===
/** The persistent entities of the orchestra application and the stores that hold them.
    `Orchestra` stands for both the `Orchestra` and `OrchestraEntity` classes and `Musician`
    for both `Musician` and `MusicianEntity`: the two pairs have the same columns. */
module Domain {
  import opened Common

  /** A database identifier (a Java `Long`). */
  type Id = int

  /** A date, as milliseconds since the epoch. */
  type Date = int

  /** An orchestra row. The inverse `musicians` collection is not part of the value. */
  datatype Orchestra = Orchestra(
    id: Option<Id>,
    name: Option<string>,
    city: Option<string>,
    country: Option<string>,
    estile: Option<string>,
    conductor: Option<string>)

  /** A musician row; `orchestra` is the many-to-one link, null when the musician has none. */
  datatype Musician = Musician(
    id: Option<Id>,
    firstname: Option<string>,
    lastname: Option<string>,
    birthdate: Option<Date>,
    instrument: Option<string>,
    email: Option<string>,
    orchestra: Option<Orchestra>)

  /** The musicians table, keyed by primary key. */
  type MusicianStore = map<Id, Musician>

  /** The orchestras table, keyed by primary key. */
  type OrchestraStore = map<Id, Orchestra>

  /** The persistence layer's own invariant: every stored row carries the key it is stored under. */
  predicate MusiciansKeyed(store: MusicianStore) {
    forall k :: k in store ==> store[k].id == Some(k)
  }

  predicate OrchestrasKeyed(store: OrchestraStore) {
    forall k :: k in store ==> store[k].id == Some(k)
  }

  /** Java reference equality between two managed orchestras: within one persistence
      context two managed instances are the same object exactly when they are the same row. */
  predicate SameRow(a: Orchestra, b: Orchestra) {
    a.id.Some? && a.id == b.id
  }
}

=== FILE: dto_musician_mapper.dfy ===
/** The musician transfer object of the `dto` package and its two converters.
    This DTO carries the id of the musician's orchestra. */
module DtoMusicianMapper {
  import opened Common
  import opened Domain

  datatype MusicianDto = MusicianDto(
    id: Option<Id>,
    firstname: Option<string>,
    lastname: Option<string>,
    birthdate: Option<Date>,
    instrument: Option<string>,
    email: Option<string>,
    orchestraId: Option<Id>)

  /** The six scalar columns agree between an entity and a DTO. */
  predicate SameScalars(m: Musician, d: MusicianDto) {
    && m.id == d.id
    && m.firstname == d.firstname
    && m.lastname == d.lastname
    && m.birthdate == d.birthdate
    && m.instrument == d.instrument
    && m.email == d.email
  }

  /** Entity to DTO: the scalars are copied and `orchestraId` is the linked orchestra's id,
      left null when the musician has no orchestra. */
  function ConvertToDto(m: Musician): (d: MusicianDto)
    ensures SameScalars(m, d)
    ensures m.orchestra.None? ==> d.orchestraId.None?
    ensures m.orchestra.Some? ==> d.orchestraId == m.orchestra.value.id
  {
    MusicianDto(m.id, m.firstname, m.lastname, m.birthdate, m.instrument, m.email,
                if m.orchestra.Some? then m.orchestra.value.id else None)
  }

  /** DTO to entity: the scalars are copied and the orchestra link is never set. */
  function ConvertToEntity(d: MusicianDto): (m: Musician)
    ensures SameScalars(m, d)
    ensures m.orchestra.None?
  {
    Musician(d.id, d.firstname, d.lastname, d.birthdate, d.instrument, d.email, None)
  }

  /** DTO -> entity -> DTO keeps every scalar and loses the orchestra id. */
  lemma DtoRoundTrip(d: MusicianDto)
    ensures ConvertToDto(ConvertToEntity(d)) == d.(orchestraId := None)
  {
  }

  /** Entity -> DTO -> entity keeps every scalar and loses the orchestra link. */
  lemma EntityRoundTrip(m: Musician)
    ensures ConvertToEntity(ConvertToDto(m)) == m.(orchestra := None)
  {
  }

  /** The DTO determines the orchestra's id but nothing else about the orchestra:
      two musicians whose orchestras share an id map to the same DTO. */
  lemma OnlyOrchestraIdSurvives(m: Musician, o1: Orchestra, o2: Orchestra)
    requires o1.id == o2.id
    ensures ConvertToDto(m.(orchestra := Some(o1))) == ConvertToDto(m.(orchestra := Some(o2)))
  {
  }
}

=== FILE: jwt_service.dfy ===
/** Issuing and checking signed tokens. A token is its claim set plus a MAC over that claim set
    under the service's key; the MAC itself (HS256) is a parameter of the model. Times are
    milliseconds since the epoch and the current time is always passed in. */
module JwtService {
  import opened Common
  import opened Accounts

  /** A value stored under an extra claim name. */
  datatype ClaimValue = Text(text: string) | Number(number: int) | Flag(flag: bool)

  /** The claims of a token; a claim that is absent reads as null. */
  datatype Claims = Claims(
    extra: map<string, ClaimValue>,
    subject: Option<string>,
    issuedAt: Option<nat>,
    expiration: Option<nat>)

  /** A token string as the parser sees it: a compact signed token, or text that does not parse. */
  datatype Token = Signed(claims: Claims, signature: Bytes) | Unparseable(text: string)

  /** The signing key and the MAC computed with it. */
  datatype Signer = Signer(key: Bytes, mac: (Bytes, Claims) -> Bytes)

  datatype JwtError =
    | IllegalArgument     // getToken was handed a null user
    | MalformedJwt        // the text is not a compact signed token
    | SignatureMismatch   // the MAC does not verify under the key
    | NullPointer         // a claim the code dereferences is absent

  /** How long an issued token lives: 1000 * 60 * 24 ms, i.e. 24 minutes. */
  const TokenLifetime: nat := 1000 * 60 * 24

  /** The token parses and its signature is the MAC of its claims under the key. */
  predicate Verifies(signer: Signer, t: Token) {
    t.Signed? && signer.mac(signer.key, t.claims) == t.signature
  }

  /** The private `getToken(extraClaims, user)`: sets the extra claims, then subject,
      issued-at and expiration, and signs. */
  function BuildToken(signer: Signer, extraClaims: map<string, ClaimValue>, user: User, now: nat): (t: Token)
    ensures Verifies(signer, t)
    ensures t.claims.extra == extraClaims
    ensures t.claims.subject == Some(user.username)
    ensures t.claims.issuedAt == Some(now)
    ensures t.claims.expiration == Some(now + TokenLifetime)
  {
    var claims := Claims(extraClaims, Some(user.username), Some(now), Some(now + TokenLifetime));
    Signed(claims, signer.mac(signer.key, claims))
  }

  /** The public `getToken(user)`: rejects a null user, otherwise issues with no extra claims. */
  function GetToken(signer: Signer, user: Option<User>, now: nat): (r: Result<Token, JwtError>)
    ensures r.Err? <==> user.None?
    ensures r.Err? ==> r.error == IllegalArgument
    ensures r.Ok? ==> Verifies(signer, r.value)
    ensures r.Ok? ==> r.value.claims.extra == map[]
    ensures r.Ok? ==> r.value.claims.subject == Some(user.value.username)
  {
    if user.None? then Err(IllegalArgument) else Ok(BuildToken(signer, map[], user.value, now))
  }

  /** Parsing: claims come back only from a token whose signature verifies under the key. */
  function GetAllClaims(signer: Signer, t: Token): (r: Result<Claims, JwtError>)
    ensures r.Ok? <==> Verifies(signer, t)
    ensures r.Ok? ==> r.value == t.claims
    ensures t.Unparseable? ==> r == Err(MalformedJwt)
    ensures t.Signed? && !Verifies(signer, t) ==> r == Err(SignatureMismatch)
  {
    match t
    case Unparseable(_) => Err(MalformedJwt)
    case Signed(claims, signature) =>
      if signer.mac(signer.key, claims) == signature then Ok(claims) else Err(SignatureMismatch)
  }

  /** `getClaim`: applies the resolver to the verified claims; a token that does not verify fails. */
  function GetClaim<T>(signer: Signer, t: Token, resolver: Claims -> T): (r: Result<T, JwtError>)
    ensures r.Ok? <==> Verifies(signer, t)
    ensures r.Ok? ==> r.value == resolver(t.claims)
    ensures r.Err? ==> r.error == GetAllClaims(signer, t).error
  {
    var claims :- GetAllClaims(signer, t);
    Ok(resolver(claims))
  }

  /** `getUsernameFromToken`: the subject claim, possibly null. */
  function GetUsernameFromToken(signer: Signer, t: Token): (r: Result<Option<string>, JwtError>)
    ensures r.Ok? <==> Verifies(signer, t)
    ensures r.Ok? ==> r.value == t.claims.subject
  {
    GetClaim(signer, t, (c: Claims) => c.subject)
  }

  /** `getExpiration`: the expiration claim, possibly null. */
  function GetExpiration(signer: Signer, t: Token): (r: Result<Option<nat>, JwtError>)
    ensures r.Ok? <==> Verifies(signer, t)
    ensures r.Ok? ==> r.value == t.claims.expiration
  {
    GetClaim(signer, t, (c: Claims) => c.expiration)
  }

  /** `isTokenExpired`: `expiration.before(now)`, which is strict; a missing expiration throws. */
  function IsTokenExpired(signer: Signer, t: Token, now: nat): (r: Result<bool, JwtError>)
    ensures r.Ok? <==> Verifies(signer, t) && t.claims.expiration.Some?
    ensures r.Ok? ==> (r.value <==> t.claims.expiration.value < now)
    ensures Verifies(signer, t) && t.claims.expiration.None? ==> r == Err(NullPointer)
  {
    var expiration :- GetExpiration(signer, t);
    if expiration.None? then Err(NullPointer) else Ok(expiration.value < now)
  }

  /** `isTokenValid`: the subject must equal the user's name and the token must not be expired.
      The comparison short-circuits, so expiry is only read when the names match. */
  function IsTokenValid(signer: Signer, t: Token, user: User, now: nat): (r: Result<bool, JwtError>)
    ensures r == Ok(true) <==>
      && Verifies(signer, t)
      && t.claims.subject == Some(user.username)
      && t.claims.expiration.Some? && !(t.claims.expiration.value < now)
    ensures r == Ok(false) <==>
      && Verifies(signer, t)
      && t.claims.subject.Some?
      && (t.claims.subject.value != user.username
          || (t.claims.expiration.Some? && t.claims.expiration.value < now))
    ensures !Verifies(signer, t) ==> r == Err(GetAllClaims(signer, t).error)
    ensures Verifies(signer, t) && t.claims.subject.None? ==> r == Err(NullPointer)
    ensures Verifies(signer, t) && t.claims.subject == Some(user.username) && t.claims.expiration.None?
            ==> r == Err(NullPointer)
  {
    var username :- GetUsernameFromToken(signer, t);
    if username.None? then Err(NullPointer)
    else if username.value != user.username then Ok(false)
    else
      var expired :- IsTokenExpired(signer, t, now);
      Ok(!expired)
  }

  /** An issued token lives exactly 1,440,000 ms past its issue time and carries no extra claims. */
  lemma IssuedTokenLifetime(signer: Signer, user: User, now: nat)
    ensures var t := GetToken(signer, Some(user), now).value;
            && t.claims.issuedAt == Some(now)
            && t.claims.expiration == Some(now + 1440000)
            && t.claims.extra == map[]
  {
  }

  /** Round trip: the username read back from a token issued for `user` is `user.username`. */
  lemma SubjectRoundTrip(signer: Signer, user: User, now: nat)
    ensures GetUsernameFromToken(signer, GetToken(signer, Some(user), now).value) == Ok(Some(user.username))
  {
  }

  /** A token issued at `issued` is valid for its user at `now` exactly until its expiration
      instant, inclusive, and is never valid for a user with another name. */
  lemma IssuedTokenValidity(signer: Signer, user: User, other: User, issued: nat, now: nat)
    requires other.username != user.username
    ensures var t := GetToken(signer, Some(user), issued).value;
            && IsTokenValid(signer, t, user, now) == Ok(now <= issued + 1440000)
            && IsTokenValid(signer, t, other, now) == Ok(false)
  {
  }

  /** Expiry is strict: at the expiration instant itself the token is not expired. */
  lemma ExpiryIsStrict(signer: Signer, user: User, issued: nat)
    ensures var t := GetToken(signer, Some(user), issued).value;
            && IsTokenExpired(signer, t, issued + TokenLifetime) == Ok(false)
            && IsTokenExpired(signer, t, issued + TokenLifetime + 1) == Ok(true)
  {
  }

  /** Replacing the signature of an issued token makes every check fail with a signature mismatch. */
  lemma ForgedSignatureRejected(signer: Signer, user: User, issued: nat, forged: Bytes, now: nat)
    requires forged != GetToken(signer, Some(user), issued).value.signature
    ensures var t := GetToken(signer, Some(user), issued).value;
            var f := Signed(t.claims, forged);
            && GetUsernameFromToken(signer, f) == Err(SignatureMismatch)
            && IsTokenValid(signer, f, user, now) == Err(SignatureMismatch)
  {
  }

  /** A token issued under one key is rejected under any other key the MAC separates from it,
      that is, one under which no set of claims gets the same MAC. */
  lemma OtherKeyRejected(signer: Signer, otherKey: Bytes, user: User, issued: nat, now: nat)
    requires forall c: Claims :: signer.mac(otherKey, c) != signer.mac(signer.key, c)
    ensures var t := GetToken(signer, Some(user), issued).value;
            IsTokenValid(signer.(key := otherKey), t, user, now) == Err(SignatureMismatch)
  {
  }
}

=== FILE: model_musician_mapper.dfy ===
/** The musician transfer object of the `model.dto` package. It declares `orchestraId` and
    `orchestraName`, but the code that would fill them is commented out, so neither is ever set. */
module ModelMusicianMapper {
  import opened Common
  import opened Domain

  datatype MusicianDto = MusicianDto(
    id: Option<Id>,
    firstname: Option<string>,
    lastname: Option<string>,
    birthdate: Option<Date>,
    instrument: Option<string>,
    email: Option<string>,
    orchestraId: Option<Id>,
    orchestraName: Option<string>)

  /** `MusicianEntity` has exactly the columns of `Musician`. */
  type MusicianEntity = Musician

  /** The six scalar columns agree between an entity and a DTO. */
  predicate SameScalars(m: Musician, d: MusicianDto) {
    && m.id == d.id
    && m.firstname == d.firstname
    && m.lastname == d.lastname
    && m.birthdate == d.birthdate
    && m.instrument == d.instrument
    && m.email == d.email
  }

  /** Entity to DTO: scalars copied, both orchestra fields left null whatever the entity holds. */
  function ConvertToDto(m: MusicianEntity): (d: MusicianDto)
    ensures SameScalars(m, d)
    ensures d.orchestraId.None? && d.orchestraName.None?
  {
    MusicianDto(m.id, m.firstname, m.lastname, m.birthdate, m.instrument, m.email, None, None)
  }

  /** DTO to entity: scalars copied, orchestra explicitly set to null. */
  function ConvertToEntity(d: MusicianDto): (m: MusicianEntity)
    ensures SameScalars(m, d)
    ensures m.orchestra.None?
  {
    Musician(d.id, d.firstname, d.lastname, d.birthdate, d.instrument, d.email, None)
  }

  /** Entity -> DTO -> entity preserves the scalars and always ends with no orchestra. */
  lemma EntityRoundTrip(m: MusicianEntity)
    ensures ConvertToEntity(ConvertToDto(m)) == m.(orchestra := None)
  {
  }

  /** DTO -> entity -> DTO preserves the scalars and clears both orchestra fields. */
  lemma DtoRoundTrip(d: MusicianDto)
    ensures ConvertToDto(ConvertToEntity(d)) == d.(orchestraId := None, orchestraName := None)
  {
  }

  /** The orchestra never influences the DTO. */
  lemma OrchestraIgnored(m: MusicianEntity, o: Option<Orchestra>)
    ensures ConvertToDto(m.(orchestra := o)) == ConvertToDto(m)
  {
  }
}

=== FILE: musician_service.dfy ===
/** The musician service: the association rules between musicians and orchestras,
    over the two tables held as finite maps. Every exception the service throws is a
    `ServiceError`; a failing call returns no new tables, so the stores stay as they were. */
module MusicianService {
  import opened Common
  import opened Domain
  import opened DtoMusicianMapper

  /** Why a wrapped `RuntimeException` was thrown. */
  datatype Cause = NoSuchOrchestra(orchestraId: Id) | NoSuchMusician(musicianId: Id) | NullOrchestra

  datatype ServiceError =
    | NoSuchElement(id: Id)     // NoSuchElementException
    | Runtime(cause: Cause)     // RuntimeException wrapping the cause

  /** Both tables the service reads and writes. */
  datatype Stores = Stores(musicians: MusicianStore, orchestras: OrchestraStore)

  /** A successful call: the tables afterwards and the value returned. */
  datatype Step<T> = Step(stores: Stores, value: T)

  predicate WellKeyed(s: Stores) {
    MusiciansKeyed(s.musicians) && OrchestrasKeyed(s.orchestras)
  }

  /** The result of `musicianRepository.save`: the new table and the saved entity. */
  datatype Saved = Saved(store: MusicianStore, entity: Musician)

  /** `musicianRepository.save`: an entity whose id names a stored row is merged into that row;
      any other entity (no id, or an id no row has) is inserted under the generated `freshId`,
      as Hibernate's merge does with an unknown id. No other row changes. */
  function Persist(store: MusicianStore, m: Musician, freshId: Id): (r: Saved)
    requires freshId !in store
    ensures r.entity.id.Some? && r.store == store[r.entity.id.value := r.entity]
    ensures m.id.Some? && m.id.value in store ==> r.entity == m && r.store.Keys == store.Keys
    ensures !(m.id.Some? && m.id.value in store) ==>
              r.entity == m.(id := Some(freshId)) && r.store.Keys == store.Keys + {freshId}
    ensures MusiciansKeyed(store) ==> MusiciansKeyed(r.store)
  {
    var key := if m.id.Some? && m.id.value in store then m.id.value else freshId;
    var saved := m.(id := Some(key));
    Saved(store[key := saved], saved)
  }

  /** The key a saved DTO ends up under: its own id when a row has it, the generated one otherwise. */
  function SaveKey(store: MusicianStore, d: MusicianDto, freshId: Id): Id {
    if d.id.Some? && d.id.value in store then d.id.value else freshId
  }

  /** `saveMusician`: converts the DTO, links the orchestra named by `orchestraId` when there is
      one (failing when it does not exist), saves, and returns the saved row as a DTO. */
  function SaveMusician(s: Stores, d: MusicianDto, freshId: Id): (r: Result<Step<MusicianDto>, ServiceError>)
    requires freshId !in s.musicians
    ensures r.Err? <==> d.orchestraId.Some? && d.orchestraId.value !in s.orchestras
    ensures r.Err? ==> r.error == Runtime(NoSuchOrchestra(d.orchestraId.value))
    ensures r.Ok? ==> r.value.stores.orchestras == s.orchestras
    ensures r.Ok? ==>
      var k := SaveKey(s.musicians, d, freshId);
      && r.value.stores.musicians.Keys == s.musicians.Keys + {k}
      && (forall j :: j in s.musicians && j != k ==> r.value.stores.musicians[j] == s.musicians[j])
      && SameScalars(r.value.stores.musicians[k].(id := d.id), d)
      && r.value.stores.musicians[k].id == Some(k)
      && (d.orchestraId.None? ==> r.value.stores.musicians[k].orchestra.None?)
      && (d.orchestraId.Some? ==> r.value.stores.musicians[k].orchestra == Some(s.orchestras[d.orchestraId.value]))
      && r.value.value == ConvertToDto(r.value.stores.musicians[k])
    ensures r.Ok? && WellKeyed(s) ==> WellKeyed(r.value.stores) && r.value.value.orchestraId == d.orchestraId
  {
    var m := ConvertToEntity(d);
    if d.orchestraId.Some? && d.orchestraId.value !in s.orchestras then
      Err(Runtime(NoSuchOrchestra(d.orchestraId.value)))
    else
      var linked := if d.orchestraId.Some? then m.(orchestra := Some(s.orchestras[d.orchestraId.value])) else m;
      assert d.orchestraId.Some? && WellKeyed(s) ==>
        var oid := d.orchestraId.value; oid in s.orchestras && s.orchestras[oid].id == Some(oid);
      var saved := Persist(s.musicians, linked, freshId);
      Ok(Step(s.(musicians := saved.store), ConvertToDto(saved.entity)))
  }

  /** `getMusicianById`: the stored musician as a DTO, or `NoSuchElementException`. */
  function GetMusicianById(s: Stores, id: Id): (r: Result<MusicianDto, ServiceError>)
    ensures r.Ok? <==> id in s.musicians
    ensures r.Ok? ==> SameScalars(s.musicians[id], r.value)
    ensures r.Ok? && s.musicians[id].orchestra.Some? ==> r.value.orchestraId == s.musicians[id].orchestra.value.id
    ensures r.Ok? && s.musicians[id].orchestra.None? ==> r.value.orchestraId.None?
    ensures r.Err? ==> r.error == NoSuchElement(id)
  {
    if id in s.musicians then Ok(ConvertToDto(s.musicians[id])) else Err(NoSuchElement(id))
  }

  /** `findAll` returns every stored key exactly once, in the repository's order. */
  predicate IsListing(listing: seq<Id>, store: MusicianStore) {
    && (forall i :: 0 <= i < |listing| ==> listing[i] in store)
    && (forall k :: k in store ==> k in listing)
    && (forall i, j :: 0 <= i < j < |listing| ==> listing[i] != listing[j])
  }

  /** A repetition-free listing has as many entries as the set it lists. */
  lemma {:induction false} ListingSize(listing: seq<Id>, keys: set<Id>)
    requires forall i :: 0 <= i < |listing| ==> listing[i] in keys
    requires forall k :: k in keys ==> k in listing
    requires forall i, j :: 0 <= i < j < |listing| ==> listing[i] != listing[j]
    ensures |listing| == |keys|
  {
    if |listing| == 0 {
      assert keys <= {} by {
        forall k | k in keys
          ensures k in listing
        {
        }
      }
    } else {
      var head := listing[0];
      var tail := listing[1..];
      forall i | 0 <= i < |tail|
        ensures tail[i] in keys - {head}
      {
        assert tail[i] == listing[i + 1];
      }
      forall k | k in keys - {head}
        ensures k in tail
      {
        assert k in listing;
        var i :| 0 <= i < |listing| && listing[i] == k;
        assert i != 0;
        assert tail[i - 1] == k;
      }
      forall i, j | 0 <= i < j < |tail|
        ensures tail[i] != tail[j]
      {
        assert tail[i] == listing[i + 1] && tail[j] == listing[j + 1];
      }
      ListingSize(tail, keys - {head});
    }
  }

  /** `getAllMusicians`: one DTO per stored musician, in the order `findAll` lists them. */
  method GetAllMusicians(s: Stores, listing: seq<Id>) returns (r: seq<MusicianDto>)
    requires IsListing(listing, s.musicians)
    ensures |r| == |listing| == |s.musicians|
    ensures forall i :: 0 <= i < |r| ==> r[i] == ConvertToDto(s.musicians[listing[i]])
    ensures forall k :: k in s.musicians ==>
              exists i :: 0 <= i < |r| && listing[i] == k && r[i] == ConvertToDto(s.musicians[k])
  {
    ListingSize(listing, s.musicians.Keys);
    r := [];
    for n := 0 to |listing|
      invariant |r| == n
      invariant forall i :: 0 <= i < n ==> r[i] == ConvertToDto(s.musicians[listing[i]])
    {
      r := r + [ConvertToDto(s.musicians[listing[n]])];
    }
    forall k | k in s.musicians
      ensures exists i :: 0 <= i < |r| && listing[i] == k && r[i] == ConvertToDto(s.musicians[k])
    {
      var i :| 0 <= i < |listing| && listing[i] == k;
      assert r[i] == ConvertToDto(s.musicians[k]);
    }
  }

  /** `deleteMusicianById`: that row is gone, every other row and the orchestras are untouched. */
  function DeleteMusicianById(s: Stores, id: Id): (r: Stores)
    ensures id !in r.musicians
    ensures r.musicians.Keys == s.musicians.Keys - {id}
    ensures forall k :: k in r.musicians ==> r.musicians[k] == s.musicians[k]
    ensures r.orchestras == s.orchestras
    ensures WellKeyed(s) ==> WellKeyed(r)
  {
    s.(musicians := s.musicians - {id})
  }

  /** `addMusicianToOrchestra`: fails when the orchestra is missing; otherwise saves the musician
      linked to it and returns the saved row as a DTO. */
  function AddMusicianToOrchestra(s: Stores, orchestraId: Id, d: MusicianDto, freshId: Id)
    : (r: Result<Step<MusicianDto>, ServiceError>)
    requires freshId !in s.musicians
    ensures r.Err? <==> orchestraId !in s.orchestras
    ensures r.Err? ==> r.error == Runtime(NoSuchOrchestra(orchestraId))
    ensures r.Ok? ==>
      var k := SaveKey(s.musicians, d, freshId);
      && r.value.stores.orchestras == s.orchestras
      && r.value.stores.musicians.Keys == s.musicians.Keys + {k}
      && (forall j :: j in s.musicians && j != k ==> r.value.stores.musicians[j] == s.musicians[j])
      && r.value.stores.musicians[k].id == Some(k)
      && r.value.stores.musicians[k].orchestra == Some(s.orchestras[orchestraId])
      && SameScalars(r.value.stores.musicians[k].(id := d.id), d)
      && r.value.value == ConvertToDto(r.value.stores.musicians[k])
    ensures r.Ok? && WellKeyed(s) ==> WellKeyed(r.value.stores) && r.value.value.orchestraId == Some(orchestraId)
  {
    if orchestraId !in s.orchestras then
      Err(Runtime(NoSuchOrchestra(orchestraId)))
    else
      var m := ConvertToEntity(d).(orchestra := Some(s.orchestras[orchestraId]));
      var saved := Persist(s.musicians, m, freshId);
      Ok(Step(s.(musicians := saved.store), ConvertToDto(saved.entity)))
  }

  /** `removeMusicianFromOrchestra` as written: both rows must exist, and
      `musician.getOrchestra().equals(orchestra)` throws when the musician has no orchestra.
      When the musician belongs to the orchestra the link is cleared and the call answers true;
      otherwise nothing changes and it answers false. */
  function RemoveMusicianFromOrchestra(s: Stores, orchestraId: Id, musicianId: Id)
    : (r: Result<Step<bool>, ServiceError>)
    ensures orchestraId !in s.orchestras ==> r == Err(Runtime(NoSuchOrchestra(orchestraId)))
    ensures orchestraId in s.orchestras && musicianId !in s.musicians ==> r == Err(Runtime(NoSuchMusician(musicianId)))
    ensures orchestraId in s.orchestras && musicianId in s.musicians && s.musicians[musicianId].orchestra.None?
            ==> r == Err(Runtime(NullOrchestra))
    ensures r.Ok? <==> orchestraId in s.orchestras && musicianId in s.musicians && s.musicians[musicianId].orchestra.Some?
    ensures r.Ok? ==> (r.value.value <==> SameRow(s.musicians[musicianId].orchestra.value, s.orchestras[orchestraId]))
    ensures r.Ok? && r.value.value ==>
      r.value.stores == s.(musicians := s.musicians[musicianId := s.musicians[musicianId].(orchestra := None)])
    ensures r.Ok? && !r.value.value ==> r.value.stores == s
  {
    if orchestraId !in s.orchestras then Err(Runtime(NoSuchOrchestra(orchestraId)))
    else if musicianId !in s.musicians then Err(Runtime(NoSuchMusician(musicianId)))
    else
      var m := s.musicians[musicianId];
      if m.orchestra.None? then Err(Runtime(NullOrchestra))
      else if SameRow(m.orchestra.value, s.orchestras[orchestraId]) then
        Ok(Step(s.(musicians := s.musicians[musicianId := m.(orchestra := None)]), true))
      else
        Ok(Step(s, false))
  }

  /** The evidently intended removal: a musician without an orchestra is not in this one,
      so the answer is false instead of an exception. */
  function RemoveMusicianFromOrchestraNullSafe(s: Stores, orchestraId: Id, musicianId: Id)
    : (r: Result<Step<bool>, ServiceError>)
    ensures r.Ok? <==> orchestraId in s.orchestras && musicianId in s.musicians
    ensures r.Ok? ==>
      (r.value.value <==> s.musicians[musicianId].orchestra.Some?
                          && SameRow(s.musicians[musicianId].orchestra.value, s.orchestras[orchestraId]))
    ensures r.Ok? && r.value.value ==>
      r.value.stores == s.(musicians := s.musicians[musicianId := s.musicians[musicianId].(orchestra := None)])
    ensures r.Ok? && !r.value.value ==> r.value.stores == s
    ensures r.Ok? && WellKeyed(s) ==> WellKeyed(r.value.stores)
  {
    if orchestraId in s.orchestras && musicianId in s.musicians && s.musicians[musicianId].orchestra.None? then
      Ok(Step(s, false))
    else
      RemoveMusicianFromOrchestra(s, orchestraId, musicianId)
  }

  /** The two removals agree everywhere except on a musician with no orchestra. */
  lemma NullSafeAgreesElsewhere(s: Stores, orchestraId: Id, musicianId: Id)
    requires !(orchestraId in s.orchestras && musicianId in s.musicians && s.musicians[musicianId].orchestra.None?)
    ensures RemoveMusicianFromOrchestraNullSafe(s, orchestraId, musicianId)
         == RemoveMusicianFromOrchestra(s, orchestraId, musicianId)
  {
  }

  /** A concrete witness of the discrepancy: orchestra 1 exists, musician 2 has no orchestra.
      As written the call throws; the intended answer is false with nothing changed. */
  lemma UnassignedMusicianWitness()
    ensures var o := Orchestra(Some(1), None, None, None, None, None);
            var m := Musician(Some(2), None, None, None, None, None, None);
            var s := Stores(map[2 := m], map[1 := o]);
            && RemoveMusicianFromOrchestra(s, 1, 2) == Err(Runtime(NullOrchestra))
            && RemoveMusicianFromOrchestraNullSafe(s, 1, 2) == Ok(Step(s, false))
  {
  }

  /** Saving and then reading back: the row is found under the key it was saved under, and the
      DTO read back is the one the save returned. */
  lemma SaveThenGet(s: Stores, d: MusicianDto, freshId: Id)
    requires freshId !in s.musicians
    requires d.orchestraId.None? || d.orchestraId.value in s.orchestras
    ensures var saved := SaveMusician(s, d, freshId);
            && saved.Ok?
            && GetMusicianById(saved.value.stores, SaveKey(s.musicians, d, freshId)) == Ok(saved.value.value)
  {
  }

  /** Deleting and then reading back fails, while every other musician still reads as before. */
  lemma DeleteThenGet(s: Stores, id: Id, other: Id)
    requires other != id
    ensures GetMusicianById(DeleteMusicianById(s, id), id) == Err(NoSuchElement(id))
    ensures GetMusicianById(DeleteMusicianById(s, id), other) == GetMusicianById(s, other)
  {
  }

  /** Adding a musician to an orchestra and then removing it from that orchestra answers true
      and leaves the musician stored with no orchestra, both as the code is written and with the
      corrected removal (the added musician always has an orchestra, so the two agree). */
  lemma AddThenRemove(s: Stores, orchestraId: Id, d: MusicianDto, freshId: Id)
    requires freshId !in s.musicians
    requires WellKeyed(s)
    requires orchestraId in s.orchestras
    ensures var added := AddMusicianToOrchestra(s, orchestraId, d, freshId);
            && added.Ok?
            && var k := SaveKey(s.musicians, d, freshId);
               var removed := RemoveMusicianFromOrchestra(added.value.stores, orchestraId, k);
               var removedSafely := RemoveMusicianFromOrchestraNullSafe(added.value.stores, orchestraId, k);
               && removed.Ok? && removed.value.value
               && k in removed.value.stores.musicians
               && removed.value.stores.musicians[k].orchestra.None?
               && removedSafely == removed
  {
  }
}

=== FILE: orchestra_controller.dfy ===
/** The orchestra REST controller: how each handler turns the orchestra service's outcome into an
    HTTP status and body. The service is observed through what its calls return (or that they
    threw); each handler also reports the service calls it made, in order. */
module OrchestraController {
  import opened Common
  import opened Domain
  import opened OrchestraMapper

  const OK: nat := 200
  const CREATED: nat := 201
  const BAD_REQUEST: nat := 400
  const NOT_FOUND: nat := 404
  const INTERNAL_SERVER_ERROR: nat := 500

  /** What one service call did: returned a value, or threw. */
  datatype Call<+T> = Returned(value: T) | Threw

  /** The service operations a handler can invoke. */
  datatype ServiceCall =
    | GetAllOrchestras
    | GetOrchestraById(id: Option<Id>)
    | SaveOrchestra(dto: OrchestraDto)
    | DeleteOrchestraById(deletedId: Id)

  /** An HTTP response: a status and an optional body (None: empty body or null). */
  datatype Response<+B> = Response(status: nat, body: Option<B>)

  /** A handled request: the response and the service calls made to produce it. */
  datatype Handled<+B> = Handled(response: Response<B>, calls: seq<ServiceCall>)

  /** The statuses the controller ever answers with. */
  predicate KnownStatus(status: nat) {
    status in {OK, CREATED, BAD_REQUEST, NOT_FOUND, INTERNAL_SERVER_ERROR}
  }

  /** GET /orchestras: 200 with the single key "orchestras" bound to the service's list, 500 when it throws. */
  function GetAll(list: Call<seq<OrchestraDto>>): (h: Handled<map<string, seq<OrchestraDto>>>)
    ensures h.calls == [GetAllOrchestras]
    ensures h.response.status == INTERNAL_SERVER_ERROR <==> list.Threw?
    ensures h.response.status == OK <==> list.Returned?
    ensures list.Threw? ==> h.response.body.None?
    ensures list.Returned? ==>
      h.response.body.Some? && h.response.body.value.Keys == {"orchestras"}
      && h.response.body.value["orchestras"] == list.value
  {
    var calls := [GetAllOrchestras];
    match list
    case Returned(orchestras) => Handled(Response(OK, Some(map["orchestras" := orchestras])), calls)
    case Threw => Handled(Response(INTERNAL_SERVER_ERROR, None), calls)
  }

  /** GET /orchestras/{id}: 200 with the orchestra, 404 when the service answers null, 500 when it throws. */
  function FindOrchestra(id: Id, found: Call<Option<OrchestraDto>>): (h: Handled<OrchestraDto>)
    ensures h.calls == [GetOrchestraById(Some(id))]
    ensures h.response.status == OK <==> found.Returned? && found.value.Some?
    ensures h.response.status == NOT_FOUND <==> found.Returned? && found.value.None?
    ensures h.response.status == INTERNAL_SERVER_ERROR <==> found.Threw?
    ensures h.response.status == OK ==> h.response.body == found.value
    ensures h.response.status != OK ==> h.response.body.None?
  {
    var calls := [GetOrchestraById(Some(id))];
    match found
    case Returned(Some(o)) => Handled(Response(OK, Some(o)), calls)
    case Returned(None) => Handled(Response(NOT_FOUND, None), calls)
    case Threw => Handled(Response(INTERNAL_SERVER_ERROR, None), calls)
  }

  /** POST /orchestras/add: 201 with the saved orchestra, 400 with a null body when the save answers null,
      500 when it throws. */
  function CreateOrchestra(dto: OrchestraDto, saved: Call<Option<OrchestraDto>>): (h: Handled<OrchestraDto>)
    ensures h.calls == [SaveOrchestra(dto)]
    ensures h.response.status == CREATED <==> saved.Returned? && saved.value.Some?
    ensures h.response.status == BAD_REQUEST <==> saved.Returned? && saved.value.None?
    ensures h.response.status == INTERNAL_SERVER_ERROR <==> saved.Threw?
    ensures saved.Returned? ==> h.response.body == saved.value
    ensures saved.Threw? ==> h.response.body.None?
  {
    var calls := [SaveOrchestra(dto)];
    match saved
    case Returned(o) => Handled(Response(if o.None? then BAD_REQUEST else CREATED, o), calls)
    case Threw => Handled(Response(INTERNAL_SERVER_ERROR, None), calls)
  }

  /** PUT /orchestras/upd: looks the orchestra up by the DTO's id first. Not found: 404 and no save.
      Found: saves the DTO and answers 200 with whatever the save returned. Any throw: 500. */
  function UpdateOrchestra(dto: OrchestraDto, found: Call<Option<OrchestraDto>>, saved: Call<Option<OrchestraDto>>)
    : (h: Handled<OrchestraDto>)
    ensures |h.calls| >= 1 && h.calls[0] == GetOrchestraById(dto.id)
    ensures SaveOrchestra(dto) in h.calls <==> found.Returned? && found.value.Some?
    ensures h.calls == [GetOrchestraById(dto.id)] || h.calls == [GetOrchestraById(dto.id), SaveOrchestra(dto)]
    ensures h.response.status == NOT_FOUND <==> found.Returned? && found.value.None?
    ensures h.response.status == OK <==> found.Returned? && found.value.Some? && saved.Returned?
    ensures h.response.status == INTERNAL_SERVER_ERROR <==>
              found.Threw? || (found.Returned? && found.value.Some? && saved.Threw?)
    ensures h.response.status == OK ==> h.response.body == saved.value
    ensures h.response.status != OK ==> h.response.body.None?
  {
    var lookup := [GetOrchestraById(dto.id)];
    match found
    case Threw => Handled(Response(INTERNAL_SERVER_ERROR, None), lookup)
    case Returned(None) => Handled(Response(NOT_FOUND, None), lookup)
    case Returned(Some(_)) =>
      var calls := lookup + [SaveOrchestra(dto)];
      match saved
      case Returned(o) => Handled(Response(OK, o), calls)
      case Threw => Handled(Response(INTERNAL_SERVER_ERROR, None), calls)
  }

  /** DELETE /orchestras/del/{id}: 200 with "Orchestra deleted" once the service returns, 500 when it throws. */
  function Delete(id: Id, deleted: Call<()>): (h: Handled<string>)
    ensures h.calls == [DeleteOrchestraById(id)]
    ensures h.response.status == OK <==> deleted.Returned?
    ensures h.response.status == INTERNAL_SERVER_ERROR <==> deleted.Threw?
    ensures deleted.Returned? ==> h.response.body == Some("Orchestra deleted")
    ensures deleted.Threw? ==> h.response.body.None?
  {
    var calls := [DeleteOrchestraById(id)];
    match deleted
    case Returned(_) => Handled(Response(OK, Some("Orchestra deleted")), calls)
    case Threw => Handled(Response(INTERNAL_SERVER_ERROR, None), calls)
  }

  /** Across all five handlers: only the five known statuses occur, and 500 appears exactly
      when a service call the handler made threw. */
  lemma StatusesAreKnown(
    id: Id, dto: OrchestraDto, list: Call<seq<OrchestraDto>>, found: Call<Option<OrchestraDto>>,
    saved: Call<Option<OrchestraDto>>, deleted: Call<()>)
    ensures KnownStatus(GetAll(list).response.status)
    ensures KnownStatus(FindOrchestra(id, found).response.status)
    ensures KnownStatus(CreateOrchestra(dto, saved).response.status)
    ensures KnownStatus(UpdateOrchestra(dto, found, saved).response.status)
    ensures KnownStatus(Delete(id, deleted).response.status)
    ensures GetAll(list).response.status == INTERNAL_SERVER_ERROR <==> list.Threw?
    ensures FindOrchestra(id, found).response.status == INTERNAL_SERVER_ERROR <==> found.Threw?
    ensures CreateOrchestra(dto, saved).response.status == INTERNAL_SERVER_ERROR <==> saved.Threw?
    ensures var h := UpdateOrchestra(dto, found, saved);
            h.response.status == INTERNAL_SERVER_ERROR <==> found.Threw? || (SaveOrchestra(dto) in h.calls && saved.Threw?)
    ensures Delete(id, deleted).response.status == INTERNAL_SERVER_ERROR <==> deleted.Threw?
  {
  }
}

=== FILE: orchestra_mapper.dfy ===
/** The orchestra transfer object and its converters. Both directions copy the same six fields. */
module OrchestraMapper {
  import opened Common
  import opened Domain

  datatype OrchestraDto = OrchestraDto(
    id: Option<Id>,
    name: Option<string>,
    city: Option<string>,
    country: Option<string>,
    estile: Option<string>,
    conductor: Option<string>)

  /** Entity and DTO agree on id, name, city, country, estile and conductor. */
  predicate SameFields(o: Orchestra, d: OrchestraDto) {
    && o.id == d.id
    && o.name == d.name
    && o.city == d.city
    && o.country == d.country
    && o.estile == d.estile
    && o.conductor == d.conductor
  }

  function ConvertToDto(o: Orchestra): (d: OrchestraDto)
    ensures SameFields(o, d)
  {
    OrchestraDto(o.id, o.name, o.city, o.country, o.estile, o.conductor)
  }

  function ConvertToEntity(d: OrchestraDto): (o: Orchestra)
    ensures SameFields(o, d)
  {
    Orchestra(d.id, d.name, d.city, d.country, d.estile, d.conductor)
  }

  /** DTO -> entity -> DTO is the identity. */
  lemma DtoRoundTrip(d: OrchestraDto)
    ensures ConvertToDto(ConvertToEntity(d)) == d
  {
  }

  /** Entity -> DTO -> entity is the identity on the six modelled columns. */
  lemma EntityRoundTrip(o: Orchestra)
    ensures ConvertToEntity(ConvertToDto(o)) == o
  {
  }

  /** The conversion loses nothing: distinct orchestras give distinct DTOs. */
  lemma ConvertToDtoInjective(a: Orchestra, b: Orchestra)
    requires ConvertToDto(a) == ConvertToDto(b)
    ensures a == b
  {
  }
}

=== FILE: security_config.dfy ===
/** The security filter chain: which routes are open, where the JWT filter sits, and the gate
    that stops unauthenticated requests before any handler. Sessions are stateless, so every
    request starts with no identity and can only gain one from its own bearer token. */
module SecurityConfig {
  import opened Common

  /** What the route rules demand of a request. */
  datatype Access = Open | Authenticated

  /** The route pattern that opens the authentication endpoints (written `/auth/` then a double
      wildcard in the configuration): `/auth` itself and every path below it. */
  predicate MatchesAuthPattern(path: string) {
    path == "/auth" || "/auth/" <= path
  }

  /** The authentication endpoints are permitted to all; any other request must be authenticated. */
  function AccessFor(path: string): (a: Access)
    ensures a == Open <==> MatchesAuthPattern(path)
  {
    if MatchesAuthPattern(path) then Open else Authenticated
  }

  /** The security filters the application's chain is built from, in the order they run. */
  datatype Filter = JwtAuthentication | UsernamePasswordAuthentication | Authorization

  /** Spring's chain before the application adds its filter. With no form login configured, no
      username/password filter is installed: that entry is only the position `addFilterBefore`
      names (the filter class's registered order), which comes before the authorization filter. */
  const BaseChain: seq<Filter> := [UsernamePasswordAuthentication, Authorization]

  /** The position of the first `anchor` in the chain. */
  function FirstIndex(chain: seq<Filter>, anchor: Filter): (i: nat)
    requires anchor in chain
    ensures i < |chain| && chain[i] == anchor && anchor !in chain[..i]
  {
    if chain[0] == anchor then 0
    else
      var j := FirstIndex(chain[1..], anchor);
      assert chain[..j + 1] == [chain[0]] + chain[1..][..j];
      j + 1
  }

  /** `addFilterBefore(f, anchor)`: `f` takes the place of the first `anchor`, which moves one
      step later together with everything after it; everything before is unchanged. */
  function AddFilterBefore(chain: seq<Filter>, f: Filter, anchor: Filter): (r: seq<Filter>)
    requires anchor in chain
    ensures |r| == |chain| + 1
    ensures var i := FirstIndex(chain, anchor);
            && (forall k :: 0 <= k < i ==> r[k] == chain[k])
            && r[i] == f
            && (forall k :: i <= k < |chain| ==> r[k + 1] == chain[k])
  {
    if chain[0] == anchor then
      [f] + chain
    else
      [chain[0]] + AddFilterBefore(chain[1..], f, anchor)
  }

  /** The chain as configured: the JWT filter added before the username/password filter. */
  function ConfiguredChain(): (c: seq<Filter>)
    ensures |c| == |BaseChain| + 1 && c[0] == JwtAuthentication && c[1..] == BaseChain
  {
    AddFilterBefore(BaseChain, JwtAuthentication, UsernamePasswordAuthentication)
  }

  lemma ConfiguredChainOrder()
    ensures ConfiguredChain() == [JwtAuthentication, UsernamePasswordAuthentication, Authorization]
  {
  }

  /** A request as the gate sees it: its path and the bearer token text from its
      `Authorization` header, if it has one. */
  datatype Request = Request(path: string, bearer: Option<string>)

  /** Where a request ends up: dispatched to its handler with an identity, or denied by the gate. */
  datatype Outcome = Dispatched(identity: Option<string>) | Denied

  /** The identity the JWT filter derives from the request's own token. `resolve` is that filter's
      verdict on a token text: the authenticated username, or None. */
  function TokenIdentity(req: Request, resolve: string -> Option<string>): Option<string> {
    if req.bearer.Some? then resolve(req.bearer.value) else None
  }

  /** Runs the filters in order. The JWT filter authenticates the request when its token resolves;
      the username/password entry only marks a position, not a filter that runs, so the request
      passes it unchanged; the authorization filter denies a request that needs authentication
      and has none. A request that gets through every filter is dispatched. */
  function Run(chain: seq<Filter>, req: Request, resolve: string -> Option<string>, identity: Option<string>)
    : (o: Outcome)
    ensures o.Dispatched? && o.identity.Some? ==>
              o.identity == identity || o.identity == TokenIdentity(req, resolve)
    ensures AccessFor(req.path) == Open ==> o.Dispatched?
    ensures Authorization !in chain ==> o.Dispatched?
    ensures (&& Authorization in chain && AccessFor(req.path) == Authenticated
             && identity.None? && TokenIdentity(req, resolve).None?) ==> o.Denied?
    ensures identity.Some? ==> o.Dispatched?
    decreases |chain|
  {
    if |chain| == 0 then Dispatched(identity)
    else
      match chain[0]
      case JwtAuthentication =>
        var token := TokenIdentity(req, resolve);
        Run(chain[1..], req, resolve, if token.Some? then token else identity)
      case UsernamePasswordAuthentication =>
        Run(chain[1..], req, resolve, identity)
      case Authorization =>
        if AccessFor(req.path) == Authenticated && identity.None? then Denied
        else Run(chain[1..], req, resolve, identity)
  }

  /** Stateless session policy: each request is served from an empty security context, so the
      only identity a handler can see is the one the request's own token yields. */
  function Serve(req: Request, resolve: string -> Option<string>): (o: Outcome)
    ensures o.Dispatched? ==> o.identity == TokenIdentity(req, resolve)
  {
    Run(ConfiguredChain(), req, resolve, None)
  }

  /** The gate: a request reaches its handler exactly when its route is open or its own token
      yields an identity, and any identity the handler sees came from that token. */
  lemma GateSoundness(req: Request, resolve: string -> Option<string>)
    ensures Serve(req, resolve).Dispatched? <==>
              AccessFor(req.path) == Open || TokenIdentity(req, resolve).Some?
    ensures Serve(req, resolve).Dispatched? && Serve(req, resolve).identity.Some? ==>
              Serve(req, resolve).identity == TokenIdentity(req, resolve)
  {
  }

  /** Requests without a token: the login and register endpoints are served, an orchestra
      endpoint is denied. */
  lemma AnonymousRequests(resolve: string -> Option<string>)
    ensures Serve(Request("/auth/login", None), resolve).Dispatched?
    ensures Serve(Request("/auth/register", None), resolve).Dispatched?
    ensures Serve(Request("/orchestras", None), resolve) == Denied
  {
    assert "/auth/" <= "/auth/login";
    assert "/auth/" <= "/auth/register";
    assert !MatchesAuthPattern("/orchestras") by {
      assert "/orchestras"[1] != "/auth/"[1];
    }
    GateSoundness(Request("/orchestras", None), resolve);
  }

  /** Fail secure: a path outside `/auth` needs authentication. */
  lemma OtherRoutesNeedAuthentication(path: string)
    requires !("/auth" <= path)
    ensures AccessFor(path) == Authenticated
  {
  }

  /** Why the order matters: were the JWT filter placed after the authorization filter, a request
      to a protected route carrying a valid token and no other identity would be denied. */
  lemma LateJwtFilterDenies(req: Request, resolve: string -> Option<string>)
    requires AccessFor(req.path) == Authenticated
    ensures Run([UsernamePasswordAuthentication, Authorization, JwtAuthentication], req, resolve, None) == Denied
  {
  }
}

=== FILE: users_mapper.dfy ===
/** The users example: the user row, its transfer object and the entity-to-DTO mapper.
    The mapper copies all seven fields, the password included. */
module UsersMapper {
  import opened Common

  /** A user row; `status` is a nullable `Integer`. */
  datatype UserEntity = UserEntity(
    userId: int,
    username: Option<string>,
    firstName: Option<string>,
    lastName: Option<string>,
    gender: Option<string>,
    password: Option<string>,
    status: Option<int>)

  datatype UsersDto = UsersDto(
    userId: int,
    username: Option<string>,
    firstName: Option<string>,
    lastName: Option<string>,
    gender: Option<string>,
    password: Option<string>,
    status: Option<int>)

  function ConvertToDto(u: UserEntity): (d: UsersDto)
    ensures d.userId == u.userId
    ensures d.username == u.username && d.firstName == u.firstName && d.lastName == u.lastName
    ensures d.gender == u.gender
    ensures d.password == u.password
    ensures d.status == u.status
  {
    UsersDto(u.userId, u.username, u.firstName, u.lastName, u.gender, u.password, u.status)
  }

  /** The inverse reading of a DTO as a row. */
  function FromDto(d: UsersDto): UserEntity {
    UserEntity(d.userId, d.username, d.firstName, d.lastName, d.gender, d.password, d.status)
  }

  /** Nothing is lost: the row can be read back from its DTO, so distinct rows give distinct DTOs,
      and in particular the stored password is exposed unchanged. */
  lemma ConvertToDtoLossless(u: UserEntity)
    ensures FromDto(ConvertToDto(u)) == u
  {
  }

  lemma ConvertToDtoInjective(a: UserEntity, b: UserEntity)
    requires ConvertToDto(a) == ConvertToDto(b)
    ensures a == b
  {
  }
}

=== FILE: users_service.dfy ===
/** The users example's service: lists every stored user as a DTO. */
module UsersService {
  import opened UsersMapper

  /** `getAllUsers` over the rows `findAll` returns, in that order. The rows are taken by value,
      so the store cannot change. */
  method GetAllUsers(users: seq<UserEntity>) returns (r: seq<UsersDto>)
    ensures |r| == |users|
    ensures forall i :: 0 <= i < |users| ==> r[i] == ConvertToDto(users[i])
    ensures users == [] ==> r == []
    ensures forall i :: 0 <= i < |users| ==> FromDto(r[i]) == users[i]
  {
    r := [];
    for n := 0 to |users|
      invariant |r| == n
      invariant forall i :: 0 <= i < n ==> r[i] == ConvertToDto(users[i])
    {
      r := r + [ConvertToDto(users[n])];
    }
    forall i | 0 <= i < |users|
      ensures FromDto(r[i]) == users[i]
    {
      ConvertToDtoLossless(users[i]);
    }
  }
}
